=== FILE: README.md ===
# Task manager: a verified model

A Dafny model of the logic in a small task-management application. The
application has a Python REST backend that keeps tasks in memory, and a React
frontend. The frontend has a client-side store of tasks, a filterable list, a
create form and a PDF report generator. Every component works on `Task` records
(`id`, `title`, `description`, `completed`, `created_at`).

| module | models | form |
|---|---|---|
| `Types` | the `Task`, `TaskCreate` and `TaskUpdate` records | datatypes |
| `Seqs` | `Array.prototype.filter`, order-preserving subsequences, repetition-free sequences | functions and lemmas |
| `Backend` | the in-memory table `tasks_db` and its handlers (`main.py`) | class `TaskTable` over a map and the dictionary's key order |
| `Store` | the frontend store and its five actions (`taskStore.ts`) | class `TaskStore`; the list updates as functions |
| `Report` | the summary counts, cursor pagination and page footers of the PDF report (`pdfGenerator.ts`) | a method with the entry loop, proved against a recursive layout function |
| `TaskList` | the three-way filter, button counts and empty state (`TaskList.tsx`) | functions |
| `TaskForm` | title validation by `trim`, the payload, and the submit state machine (`TaskForm.tsx`) | class `TaskForm` whose `Submit` drives a `TaskStore` |

Inputs that come from outside the program are parameters:
- `Backend.TaskTable.Create` takes the fresh id (`uuid.uuid4()`) and the current time (`datetime.now().isoformat()`).
- Each store action takes the service call's outcome (`Reply.Ok(value)` or `Reply.Failed`), so each action is one transition.
- The report takes `wrap`, the number of lines `splitTextToSize(text, 150)` wraps a string into, as two measures: one for titles (bold 11 pt) and one for descriptions (normal 10 pt), because the same text can wrap differently in the two fonts.

A Python dictionary keeps insertion order, and `get_tasks` lists tasks in that
order. So `TaskTable` keeps the key order next to the map. Its invariant
`Valid()` says three things: each key appears once in the order, the order holds
exactly the map's keys, and each task is stored under its own id.

Behaviour of the code worth noting:
- Deleting in the store filters out every entry with the id. When ids are unique
  and the id is present, the length drops by exactly one
  (`Store.RemovedAtUniqueId`). The same holds for toggling: every entry with the
  id is replaced.
- The backend does not require a non-empty title. Only the form checks it, and
  only after trimming.
- The store never calls the client's full update (`PUT`). The backend's
  `update_task` is modelled.
- The fetch failure message is exactly "Failed to fetch task" (singular).

Repeated fetches are idempotent: `FetchTasks`'s contract sets `tasks` to the
server's list, whatever the list held before.

## Model

| member | source | states |
|---|---|---|
| `Backend.NewTask` | task-manager-backend/main.py:58-66 | A created task has the given id, title and timestamp, and is never completed. Its description is "" exactly when none or "" was given; otherwise it is the given one. |
| `Backend.ApplyUpdate` | task-manager-backend/main.py:78-83 | A partial update never changes `id` or `created_at`. A field supplied as non-None takes the new value; an omitted field keeps its old value. |
| `Backend.Toggled` | task-manager-backend/main.py:94-95 | Toggling flips `completed` and leaves every other field as it was. |
| `Backend.EmptyUpdateIsIdentity` | task-manager-backend/main.py:78-83 | An update that supplies no field leaves the task unchanged. |
| `Backend.UpdateIdempotent` | task-manager-backend/main.py:78-83 | Applying the same update twice gives the same task as applying it once. |
| `Backend.ToggleIsUpdate` | task-manager-backend/main.py:89-97 | Toggling gives the same task as an update that supplies only the negated flag. |
| `Backend.ToggleTwice` | task-manager-backend/main.py:94-97 | Toggling twice restores the original task. |
| `Backend.ValuesInOrder` | task-manager-backend/main.py:46-47 | Listing the values follows the key order, one task per key, at the same position. |
| `Backend.Without` | task-manager-backend/main.py:105 | After `del`, the key order holds exactly the other keys, in their old relative order. |
| `Backend.TaskTable.constructor` | task-manager-backend/main.py:37 | The table starts empty and valid. |
| `Backend.TaskTable.GetTasks` | task-manager-backend/main.py:45-47 | Returns every stored task once, in insertion order, with as many tasks as the table holds. Each returned task is stored under its own id, and the ids are unique. |
| `Backend.TaskTable.Get` | task-manager-backend/main.py:50-54 | Succeeds exactly when the id is stored, and returns the stored task. Otherwise it fails with 404 "Task not found". |
| `Backend.TaskTable.Create` | task-manager-backend/main.py:57-68 | Stores the new task under the new id and returns it. Every other entry is unchanged. A fresh id adds exactly one entry at the end of the order; an existing id is overwritten in place. The invariant is kept. |
| `Backend.TaskTable.Update` | task-manager-backend/main.py:71-86 | A missing id fails with 404 and leaves the table unchanged. A present id gets the partial update, which is returned; no other entry changes and the order stays the same. |
| `Backend.TaskTable.Toggle` | task-manager-backend/main.py:89-97 | A missing id fails with 404 and leaves the table unchanged. A present id gets its toggled task, which is returned; no other entry changes. |
| `Backend.TaskTable.Delete` | task-manager-backend/main.py:100-106 | A missing id fails with 404 and leaves the table unchanged. A present id is removed from the map and the order, the table shrinks by one, and the result is "Task deleted successfully". |
| `Backend.TaskTable.Health` | task-manager-backend/main.py:109-111 | Status "healthy", and `tasks_count` equals the number of stored tasks. |
| `Store.Replaced` | task-manager-frontend/src/store/taskStore.ts:53-55 | Keeps the length and order. Positions with the id hold the server's task; every other position is unchanged. |
| `Store.Removed` | task-manager-frontend/src/store/taskStore.ts:67 | Keeps exactly the tasks with another id, as a subsequence of the old list in the original order. It is shorter than the old list by exactly the number of entries holding the id, so every copy of a kept task survives. |
| `Store.ReplacedAtUniqueId` | task-manager-frontend/src/store/taskStore.ts:52-56 | With unique ids, exactly the one position holding the id is replaced. |
| `Store.ReplacedKeepsUniqueIds` | task-manager-frontend/src/store/taskStore.ts:52-56 | Replacing with the server's task for the same id keeps ids unique. |
| `Store.FilterKeepsUniqueIds` | task-manager-frontend/src/store/taskStore.ts:67 | Filtering a list with unique ids leaves the ids unique, whatever the predicate. |
| `Store.RemovedKeepsUniqueIds` | task-manager-frontend/src/store/taskStore.ts:67 | Deleting by id keeps the store's ids unique. |
| `Store.AppendedKeepsUniqueIds` | task-manager-frontend/src/store/taskStore.ts:39 | Appending a task whose id is not yet in the list keeps the ids unique. |
| `Store.RemovedAtUniqueId` | task-manager-frontend/src/store/taskStore.ts:66-68 | With unique ids and the id present, deletion drops exactly that task, so the list shrinks by one. |
| `Store.ToggleMirrorsServer` | task-manager-frontend/src/store/taskStore.ts:49-56 | Storing the backend's toggled task flips that entry's `completed` and changes nothing else in the list. |
| `Store.TaskStore.constructor` | task-manager-frontend/src/store/taskStore.ts:18-21 | The store starts with no tasks, not loading, and no error. |
| `Store.TaskStore.FetchTasks` | task-manager-frontend/src/store/taskStore.ts:23-32 | On success, `tasks` is exactly the server's list and the error is cleared. On failure, `tasks` is unchanged and the error is "Failed to fetch task". `loading` is false afterwards. |
| `Store.TaskStore.CreateTask` | task-manager-frontend/src/store/taskStore.ts:34-47 | On success, the server's task is appended after the old list and the error is cleared. On failure, `tasks` is unchanged, the error is "Failed to create task", and the failure is re-raised. `loading` is false afterwards. Unique ids stay unique when the server's new task has a fresh id. |
| `Store.TaskStore.ToggleTask` | task-manager-frontend/src/store/taskStore.ts:49-61 | On success, `tasks` becomes `Replaced` and the error is kept. On failure, `tasks` is unchanged and the error is "Failed to toggle task". `loading` is never touched and nothing is re-raised. Unique ids stay unique when the server answers with a task of the same id. |
| `Store.TaskStore.DeleteTask` | task-manager-frontend/src/store/taskStore.ts:63-73 | On success, `tasks` becomes `Removed` and the error is kept. On failure, `tasks` is unchanged and the error is "Failed to delete task". `loading` is never touched. Unique ids stay unique. |
| `Store.TaskStore.ClearError` | task-manager-frontend/src/store/taskStore.ts:75 | Resets only the error. |
| `Report.StatusLabel` | task-manager-frontend/src/utils/pdfGenerator.ts:78 | The label is "Completed" exactly when the task is completed, and "Pending" otherwise. |
| `Report.LayoutOf` | task-manager-frontend/src/utils/pdfGenerator.ts:47-82 | Places one entry per task, in input order. |
| `Report.LayoutIsWellPlaced` | task-manager-frontend/src/utils/pdfGenerator.ts:47-82 | Entry i is numbered i + 1 and labelled by its task's status. A page is added before it exactly when the cursor is above 270, and the cursor then resets to 20. The first entry is measured from 80. After an entry the cursor has moved by 5 per title line, plus 5 per description line when the description is non-empty, plus 10. |
| `Report.EntryStartsOnPage` | task-manager-frontend/src/utils/pdfGenerator.ts:49-52 | Every entry starts between 20 and 270. |
| `Report.PageCountIsBreaks` | task-manager-frontend/src/utils/pdfGenerator.ts:49-52 | The page count is 1 plus the number of page breaks. It never exceeds the number of entries, because the first entry never breaks. |
| `Report.FirstPageHolds` | task-manager-frontend/src/utils/pdfGenerator.ts:47-82 | While the layout is still on page 1, the cursor has moved at least 10 per entry, so at most 20 entries fit there. |
| `Report.ManyTasksSpill` | task-manager-frontend/src/utils/pdfGenerator.ts:49-52 | More than twenty tasks always produce a second page. |
| `Report.PageFooters` | task-manager-frontend/src/utils/pdfGenerator.ts:86-97 | Page i of N gets the footer "Page i of N", for every i from 1 to N. |
| `Report.GenerateTaskReport` | task-manager-frontend/src/utils/pdfGenerator.ts:22-97 | Completed plus pending equals the total, and each is the size of its filter. An empty list gives only "No tasks available" at 80, on one page. Otherwise the entries are the layout, well placed. The page count is 1 plus the breaks, and the footers number every page. |
| `TaskList.FilteredTasks` | task-manager-frontend/src/components/TaskList.tsx:14-18 | A task is shown exactly when it is in the list and passes the filter. The result is a subsequence of the list in the original order. |
| `TaskList.PendingTasks` | task-manager-frontend/src/components/TaskList.tsx:60 | Holds exactly the tasks that are not completed. |
| `TaskList.CompletedTasks` | task-manager-frontend/src/components/TaskList.tsx:70 | Holds exactly the completed tasks. |
| `TaskList.FilterAllIsIdentity` | task-manager-frontend/src/components/TaskList.tsx:14-17 | The 'all' filter returns the list unchanged. |
| `TaskList.PendingPlusCompleted` | task-manager-frontend/src/components/TaskList.tsx:50-70 | The pending and completed counts add up to the 'All' count. |
| `TaskList.Counts` | task-manager-frontend/src/components/TaskList.tsx:50-70 | The three button numbers: all = pending + completed, each the size of its filter. |
| `TaskList.Render` | task-manager-frontend/src/components/TaskList.tsx:20-102 | Shows the spinner exactly while loading. Shows the empty state, with the filter's heading and hint, exactly when the filtered list is empty. Otherwise shows one card per filtered task. |
| `TaskForm.LeadingSpaces` | task-manager-frontend/src/components/TaskForm.tsx:17 | The count of leading whitespace characters that `trim` removes: every character before it is whitespace, and the one at it (if any) is not. |
| `TaskForm.TrailingSpaces` | task-manager-frontend/src/components/TaskForm.tsx:17 | The count of trailing whitespace characters that `trim` removes: every character after the cut is whitespace, and the one before it (if any) is not. |
| `TaskForm.TrimHasNoOuterWhitespace` | task-manager-frontend/src/components/TaskForm.tsx:17 | The trimmed string is empty, or starts and ends with a non-whitespace character. |
| `TaskForm.TrimEmptyIffBlank` | task-manager-frontend/src/components/TaskForm.tsx:17-20 | The trimmed title is empty exactly when the title is all whitespace. |
| `TaskForm.TrimIsInfix` | task-manager-frontend/src/components/TaskForm.tsx:28-31 | `Trim`, the model of `trim()`, keeps one contiguous slice of the input, starting after the leading whitespace. Only whitespace lies before and after that slice. |
| `TaskForm.TrimIdempotent` | task-manager-frontend/src/components/TaskForm.tsx:28-31 | Trimming twice gives the same string as trimming once. |
| `TaskForm.TaskForm.constructor` | task-manager-frontend/src/components/TaskForm.tsx:6-10 | The form starts with empty inputs, no error, not submitting, and no success message. |
| `TaskForm.TaskForm.EditTitle` | task-manager-frontend/src/components/TaskForm.tsx:63-66 | Editing the title stores it and clears the validation error. |
| `TaskForm.TaskForm.EditDescription` | task-manager-frontend/src/components/TaskForm.tsx:89 | Editing the description changes only the description. |
| `TaskForm.TaskForm.Submit` | task-manager-frontend/src/components/TaskForm.tsx:14-42 | A blank title sets "Title is required", sends nothing, and leaves the store and the rest of the form unchanged. Otherwise it sends the trimmed title and description and clears the validation error. On success it clears both inputs, shows success, and the store gains the task. On failure it keeps both inputs, and the store keeps its list and shows "Failed to create task". Either way `isSubmitting` ends false. |

## Left out

- Network I/O: the axios wrappers in `taskService.ts` and the `api` client. Each call's outcome is a parameter of the store action.
- FastAPI routing, CORS middleware, pydantic request validation, `uvicorn.run`, and the constant `read_root` endpoint.
- Python objects: the backend mutates the stored `Task` object in place; the model replaces the value in the map. Responses are serialised, so the difference cannot be observed.
- Asynchrony: the intermediate `loading = true` state while a fetch or create is pending, the form's `isSubmitting = true` state that disables the submit button while the create request is pending, and races between overlapping store calls. Each action is one transition from before the call to after its answer.
- The `setTimeout` delays: the 500 ms wait before submitting, and hiding the success message after 3 s.
- `console.log` and `console.error` diagnostics.
- jsPDF drawing: fonts, sizes, colours, the separator line, horizontal positions, the locale timestamp, the dated file name and `doc.save`. Word wrapping is the `wrap` parameter.
- `TaskCard.tsx`, which forwards to the store and formats dates by locale; `Header.tsx`, whose counts repeat the report's; `App.tsx`, which is layout only; JSX and the choice of Tailwind class strings.
- Trimming covers the ECMAScript whitespace and line-terminator code points; the strings are sequences of Unicode scalar values, not UTF-16 code units.

=== FILE: Backend.dfy ===
/**
 * The REST backend's in-memory task table (task-manager-backend/main.py).
 *
 * `tasks_db` is a Python dictionary from id to Task. A Python dictionary
 * remembers insertion order, and `get_tasks` lists its values in that order,
 * so the table keeps the map together with its key order. Every handler on a
 * missing id answers 404 "Task not found" and leaves the table as it was.
 * The fresh id (`uuid.uuid4()`) and the clock (`datetime.now().isoformat()`)
 * are parameters of `Create`.
 */
module Backend {
  import opened Types
  import Seqs

  /** An HTTPException as the handlers raise it. */
  datatype ApiError = ApiError(status: nat, detail: string)

  const NotFound := ApiError(404, "Task not found")
  const Deleted := "Task deleted successfully"
  const Healthy := "healthy"

  datatype Result<T> = Ok(value: T) | Err(error: ApiError)

  /** The task `create_task` stores: never completed, description defaulting to "". */
  function NewTask(payload: TaskCreate, id: string, now: string): (t: Task)
    ensures t.id == id && t.title == payload.title && t.createdAt == now
    ensures !t.completed
    ensures t.description == "" <==> payload.description in {None, Some("")}
    ensures payload.description.Some? ==> t.description == payload.description.value
  {
    // `task.description or ""`: both None and "" become ""
    Task(id, payload.title, payload.description.GetOr(""), false, now)
  }

  /** `update_task`: each field given as non-None replaces the stored one. */
  function ApplyUpdate(t: Task, u: TaskUpdate): (r: Task)
    ensures r.id == t.id && r.createdAt == t.createdAt
    ensures r.title == (if u.title.Some? then u.title.value else t.title)
    ensures r.description == (if u.description.Some? then u.description.value else t.description)
    ensures r.completed == (if u.completed.Some? then u.completed.value else t.completed)
  {
    var t1 := if u.title.Some? then t.(title := u.title.value) else t;
    var t2 := if u.description.Some? then t1.(description := u.description.value) else t1;
    if u.completed.Some? then t2.(completed := u.completed.value) else t2
  }

  /** `toggle_task`: flip the completion flag and nothing else. */
  function Toggled(t: Task): (r: Task)
    ensures r.completed == !t.completed
    ensures r.(completed := t.completed) == t
  {
    t.(completed := !t.completed)
  }

  /** An update that supplies no field leaves the task as it was. */
  lemma EmptyUpdateIsIdentity(t: Task)
    ensures ApplyUpdate(t, TaskUpdate(None, None, None)) == t
  {
  }

  /** Applying the same partial update twice is the same as applying it once. */
  lemma UpdateIdempotent(t: Task, u: TaskUpdate)
    ensures ApplyUpdate(ApplyUpdate(t, u), u) == ApplyUpdate(t, u)
  {
  }

  /** Toggling is the update that supplies only the negated completion flag. */
  lemma ToggleIsUpdate(t: Task)
    ensures Toggled(t) == ApplyUpdate(t, TaskUpdate(None, None, Some(!t.completed)))
  {
  }

  /** Toggling twice restores the original task. */
  lemma ToggleTwice(t: Task)
    ensures Toggled(Toggled(t)) == t
  {
  }

  /** The values of `m` listed in the order of `keys` (`list(tasks_db.values())`). */
  function ValuesInOrder(m: map<string, Task>, keys: seq<string>): (r: seq<Task>)
    requires forall k :: k in keys ==> k in m
    ensures |r| == |keys|
    ensures forall i :: 0 <= i < |keys| ==> r[i] == m[keys[i]]
    decreases keys
  {
    if keys == [] then [] else [m[keys[0]]] + ValuesInOrder(m, keys[1..])
  }

  /** The key order after `del tasks_db[id]`. */
  function Without(keys: seq<string>, id: string): (r: seq<string>)
    ensures forall k :: k in r <==> k in keys && k != id
    ensures Seqs.IsSubsequence(r, keys)
  {
    var r := Seqs.Filter(keys, k => k != id);
    forall k | k in keys && k != id ensures k in r {
      Seqs.FilterKeeps(keys, k => k != id, k);
    }
    Seqs.FilterIsSubsequence(keys, k => k != id);
    r
  }

  /** Removing an element from a repetition-free sequence keeps it repetition-free. */
  lemma {:induction false} WithoutDistinct(keys: seq<string>, id: string)
    requires Seqs.Distinct(keys)
    ensures Seqs.Distinct(Without(keys, id))
    decreases keys
  {
    if keys != [] {
      WithoutDistinct(keys[1..], id);
      var rest := Without(keys[1..], id);
      assert Seqs.Filter(keys, k => k != id) == (if keys[0] != id then [keys[0]] else []) + rest;
      assert keys[0] !in keys[1..];
    }
  }

  class TaskTable {
    /** `tasks_db`: id to stored task */
    var db: map<string, Task>
    /** the dictionary's insertion order of its keys */
    var order: seq<string>

    /** The keys are listed once each, and every task is stored under its own id. */
    ghost predicate Valid()
      reads this
    {
      && Seqs.Distinct(order)
      && (forall k :: k in db <==> k in order)
      && (forall k :: k in db ==> db[k].id == k)
    }

    /** The number of stored tasks equals the length of the key order. */
    lemma SizeIsOrderLength()
      requires Valid()
      ensures |db| == |order|
    {
      Seqs.DistinctCardinality(order);
      assert db.Keys == set k | k in order;
    }

    constructor ()
      ensures Valid() && db == map[] && order == []
    {
      db := map[];
      order := [];
    }

    /** `get_tasks`: every stored task, in insertion order. */
    method GetTasks() returns (r: seq<Task>)
      requires Valid()
      ensures |r| == |db| == |order|
      ensures forall i :: 0 <= i < |r| ==> r[i] == db[order[i]]
      ensures forall k :: k in db ==> db[k] in r
      ensures forall t :: t in r ==> t.id in db && db[t.id] == t
      ensures UniqueIds(r)
    {
      SizeIsOrderLength();
      r := ValuesInOrder(db, order);
      forall k | k in db ensures db[k] in r {
        var i :| 0 <= i < |order| && order[i] == k;
        assert r[i] == db[k];
      }
    }

    /** `get_task`. */
    method Get(id: string) returns (r: Result<Task>)
      requires Valid()
      ensures r.Ok? <==> id in db
      ensures r.Ok? ==> r.value == db[id] && r.value.id == id
      ensures r.Err? ==> r.error == NotFound
    {
      if id !in db {
        return Err(NotFound);
      }
      r := Ok(db[id]);
    }

    /** `create_task` with the fresh id and the current time passed in. */
    method Create(payload: TaskCreate, id: string, now: string) returns (t: Task)
      requires Valid()
      modifies this
      ensures Valid()
      ensures t == NewTask(payload, id, now)
      ensures db == old(db)[id := t]
      ensures id !in old(db) ==> order == old(order) + [id] && |db| == |old(db)| + 1
      ensures id in old(db) ==> order == old(order) && |db| == |old(db)|
    {
      t := NewTask(payload, id, now);
      if id !in db {
        order := order + [id];
      }
      db := db[id := t];
    }

    /** `update_task`: a partial update of the stored task. */
    method Update(id: string, u: TaskUpdate) returns (r: Result<Task>)
      requires Valid()
      modifies this
      ensures Valid() && order == old(order)
      ensures id !in old(db) ==> r == Err(NotFound) && db == old(db)
      ensures id in old(db) ==> r == Ok(ApplyUpdate(old(db)[id], u)) && db == old(db)[id := r.value]
    {
      if id !in db {
        return Err(NotFound);
      }
      var updated := ApplyUpdate(db[id], u);
      db := db[id := updated];
      r := Ok(updated);
    }

    /** `toggle_task`. */
    method Toggle(id: string) returns (r: Result<Task>)
      requires Valid()
      modifies this
      ensures Valid() && order == old(order)
      ensures id !in old(db) ==> r == Err(NotFound) && db == old(db)
      ensures id in old(db) ==> r == Ok(Toggled(old(db)[id])) && db == old(db)[id := r.value]
    {
      if id !in db {
        return Err(NotFound);
      }
      var toggled := Toggled(db[id]);
      db := db[id := toggled];
      r := Ok(toggled);
    }

    /** `delete_task`. */
    method Delete(id: string) returns (r: Result<string>)
      requires Valid()
      modifies this
      ensures Valid()
      ensures id !in old(db) ==> r == Err(NotFound) && db == old(db) && order == old(order)
      ensures id in old(db) ==> r == Ok(Deleted) && db == old(db) - {id} && |db| == |old(db)| - 1
      ensures id in old(db) ==> order == Without(old(order), id)
    {
      if id !in db {
        return Err(NotFound);
      }
      WithoutDistinct(order, id);
      assert db.Keys - {id} == (db - {id}).Keys;
      db := db - {id};
      order := Without(order, id);
      r := Ok(Deleted);
    }

    /** `health_check`: the status and the number of stored tasks. */
    method Health() returns (status: string, tasksCount: nat)
      requires Valid()
      ensures status == Healthy
      ensures tasksCount == |db| == |order|
    {
      SizeIsOrderLength();
      status, tasksCount := Healthy, |db|;
    }
  }
}

=== FILE: Report.dfy ===
/**
 * The layout arithmetic of the PDF task report
 * (task-manager-frontend/src/utils/pdfGenerator.ts, `generateTaskReport`).
 *
 * Drawing is abstracted away: a document is the summary counts, the position
 * of every entry (page and vertical cursor, in millimetres from the top of
 * the page), the page count and the footers. The library's word wrapping
 * (`splitTextToSize(text, 150).length`) is the parameter `wrap`: one measure
 * for titles (set in bold 11 pt) and one for descriptions (normal 10 pt),
 * since the same text can wrap differently in the two fonts.
 */
module Report {
  import opened Types
  import TaskList

  const HeadingTop := 70      // the "Task:" heading
  const FirstEntryTop := 80   // HeadingTop + 10
  const BreakBelow := 270     // a cursor below this starts a new page
  const TopMargin := 20       // cursor at the top of a new page
  const LineHeight := 5       // per wrapped line of title or description
  const EntryGap := 10        // below the status label
  const NoTasksLine := "No tasks available"

  /**
   * One task's block: its number, whether a page was added before it, the
   * page it is on, and the cursor at its title, description and status label.
   */
  datatype Entry = Entry(
    number: nat, newPage: bool, page: nat,
    top: int, descriptionTop: Option<int>, statusTop: int, status: string)

  /** Lines a string wraps into at width 150: in the title font, and in the description font. */
  datatype Wrap = Wrap(titleLines: string -> nat, descriptionLines: string -> nat)

  datatype Cursor = Cursor(y: int, page: nat)

  /** The entries placed so far and the cursor after them. */
  datatype Layout = Layout(entries: seq<Entry>, cursor: Cursor)

  /** The empty report's single line and where it is drawn, or the task entries. */
  datatype Body = NoTasks(line: string, top: int) | Entries(entries: seq<Entry>)

  /** The footer "Page `page` of `pageCount`". */
  datatype Footer = Footer(page: nat, pageCount: nat)

  datatype Document = Document(
    total: nat, completed: nat, pending: nat,
    body: Body, pageCount: nat, footers: seq<Footer>)

  function StatusLabel(completed: bool): (s: string)
    ensures s == "Completed" <==> completed
    ensures s == "Pending" <==> !completed
  {
    if completed then "Completed" else "Pending"
  }

  /** Vertical space one entry takes: its wrapped lines plus the gap under the label. */
  function Advance(t: Task, wrap: Wrap): int {
    LineHeight * wrap.titleLines(t.title)
    + (if t.description != "" then LineHeight * wrap.descriptionLines(t.description) else 0)
    + EntryGap
  }

  /** One step of the `forEach`: the entry for `t` at position `index`, placed from cursor `c`. */
  function Place(c: Cursor, t: Task, index: nat, wrap: Wrap): (Entry, Cursor) {
    var newPage := c.y > BreakBelow;
    var page := if newPage then c.page + 1 else c.page;
    var top := if newPage then TopMargin else c.y;
    var afterTitle := top + wrap.titleLines(t.title) * LineHeight;
    var statusTop := if t.description != "" then afterTitle + wrap.descriptionLines(t.description) * LineHeight else afterTitle;
    var e := Entry(index + 1, newPage, page, top,
                   if t.description != "" then Some(afterTitle) else None,
                   statusTop, StatusLabel(t.completed));
    (e, Cursor(statusTop + EntryGap, page))
  }

  /** The layout of the first `n` tasks. */
  function LayoutOf(tasks: seq<Task>, wrap: Wrap, n: nat): (l: Layout)
    requires n <= |tasks|
    ensures |l.entries| == n
    decreases n
  {
    if n == 0 then Layout([], Cursor(FirstEntryTop, 1))
    else
      var prev := LayoutOf(tasks, wrap, n - 1);
      var placed := Place(prev.cursor, tasks[n - 1], n - 1, wrap);
      Layout(prev.entries + [placed.0], placed.1)
  }

  /** The number of entries preceded by a new page. */
  function CountBreaks(es: seq<Entry>): (k: nat)
    ensures k <= |es|
  {
    if es == [] then 0
    else CountBreaks(es[..|es| - 1]) + (if es[|es| - 1].newPage then 1 else 0)
  }

  /** The cursor before entry `i`: the first entry's top, or the previous entry's top plus its size. */
  ghost function CursorBefore(tasks: seq<Task>, wrap: Wrap, es: seq<Entry>, i: nat): int
    requires i <= |es| <= |tasks|
  {
    if i == 0 then FirstEntryTop else es[i - 1].top + Advance(tasks[i - 1], wrap)
  }

  /** Entry `i` is where the layout rules put it, given the entry before it. */
  ghost predicate PlacedAt(tasks: seq<Task>, wrap: Wrap, es: seq<Entry>, i: nat)
    requires i < |es| <= |tasks|
  {
    var t, e := tasks[i], es[i];
    var before := CursorBefore(tasks, wrap, es, i);
    && e.number == i + 1
    && e.status == StatusLabel(t.completed)
    && e.newPage == (before > BreakBelow)
    && e.top == (if e.newPage then TopMargin else before)
    && e.page == (if i == 0 then 1 else es[i - 1].page) + (if e.newPage then 1 else 0)
    && e.descriptionTop == (if t.description != "" then Some(e.top + LineHeight * wrap.titleLines(t.title)) else None)
    && e.statusTop + EntryGap == e.top + Advance(t, wrap)
  }

  /** Every entry of `es` is placed by the rules, in task order. */
  ghost predicate WellPlaced(tasks: seq<Task>, wrap: Wrap, es: seq<Entry>) {
    |es| <= |tasks| && forall i :: 0 <= i < |es| ==> PlacedAt(tasks, wrap, es, i)
  }

  /**
   * The recursive layout obeys the per-entry rules, and its cursor is where
   * the next entry would be measured from, on the last entry's page.
   */
  lemma {:induction false} LayoutIsWellPlaced(tasks: seq<Task>, wrap: Wrap, n: nat)
    requires n <= |tasks|
    ensures var l := LayoutOf(tasks, wrap, n);
      && WellPlaced(tasks, wrap, l.entries)
      && l.cursor.y == CursorBefore(tasks, wrap, l.entries, n)
      && l.cursor.page == (if n == 0 then 1 else l.entries[n - 1].page)
    decreases n
  {
    if n > 0 {
      LayoutIsWellPlaced(tasks, wrap, n - 1);
      var prev := LayoutOf(tasks, wrap, n - 1);
      var es := LayoutOf(tasks, wrap, n).entries;
      assert es == prev.entries + [es[n - 1]];
      forall i | 0 <= i < n
        ensures PlacedAt(tasks, wrap, es, i)
      {
        if i < n - 1 {
          assert PlacedAt(tasks, wrap, prev.entries, i);
          assert es[i] == prev.entries[i];
          assert i > 0 ==> es[i - 1] == prev.entries[i - 1];
        } else {
          assert n > 1 ==> es[n - 2] == prev.entries[n - 2];
        }
      }
    }
  }

  /** Every entry starts between the top margin and the page-break threshold. */
  lemma {:induction false} EntryStartsOnPage(tasks: seq<Task>, wrap: Wrap, es: seq<Entry>, i: nat)
    requires WellPlaced(tasks, wrap, es) && i < |es|
    ensures TopMargin <= es[i].top <= BreakBelow
    decreases i
  {
    assert PlacedAt(tasks, wrap, es, i);
    if i > 0 {
      EntryStartsOnPage(tasks, wrap, es, i - 1);
    }
  }

  /** Pages are added one at a time, never before the first entry: 1 + breaks, at most one page per entry. */
  lemma {:induction false} PageCountIsBreaks(tasks: seq<Task>, wrap: Wrap, n: nat)
    requires n <= |tasks|
    ensures var l := LayoutOf(tasks, wrap, n);
      && l.cursor.page == 1 + CountBreaks(l.entries)
      && (n > 0 ==> l.cursor.page <= n)
    decreases n
  {
    if n > 0 {
      PageCountIsBreaks(tasks, wrap, n - 1);
      var es := LayoutOf(tasks, wrap, n).entries;
      assert es[..n - 1] == LayoutOf(tasks, wrap, n - 1).entries;
    }
  }

  /**
   * While everything fits on the first page, every entry moves the cursor down
   * by at least EntryGap; so at most 20 entries fit on the first page.
   */
  lemma {:induction false} FirstPageHolds(tasks: seq<Task>, wrap: Wrap, n: nat)
    requires n <= |tasks|
    ensures var c := LayoutOf(tasks, wrap, n).cursor;
      c.page >= 1 && (c.page == 1 ==> c.y >= FirstEntryTop + EntryGap * n && n <= 20)
    decreases n
  {
    if n > 0 {
      FirstPageHolds(tasks, wrap, n - 1);
    }
  }

  /** More than twenty tasks always spill onto a second page. */
  lemma ManyTasksSpill(tasks: seq<Task>, wrap: Wrap)
    requires |tasks| > 20
    ensures LayoutOf(tasks, wrap, |tasks|).cursor.page >= 2
  {
    FirstPageHolds(tasks, wrap, |tasks|);
  }

  /** The footer loop: page `i` of `pageCount` gets "Page i of pageCount", for every page. */
  method PageFooters(pageCount: nat) returns (footers: seq<Footer>)
    ensures |footers| == pageCount
    ensures forall i :: 0 <= i < pageCount ==> footers[i] == Footer(i + 1, pageCount)
  {
    footers := [];
    for i := 1 to pageCount + 1
      invariant |footers| == i - 1
      invariant forall j :: 0 <= j < |footers| ==> footers[j] == Footer(j + 1, pageCount)
    {
      footers := footers + [Footer(i, pageCount)];
    }
  }

  /** `generateTaskReport`, without the drawing calls. */
  method GenerateTaskReport(tasks: seq<Task>, wrap: Wrap) returns (doc: Document)
    ensures doc.total == |tasks| == doc.completed + doc.pending
    ensures doc.completed == |TaskList.CompletedTasks(tasks)|
    ensures doc.pending == |TaskList.PendingTasks(tasks)|
    ensures tasks == [] ==> doc.body == NoTasks(NoTasksLine, FirstEntryTop) && doc.pageCount == 1
    ensures tasks != [] ==> doc.body == Entries(LayoutOf(tasks, wrap, |tasks|).entries)
    ensures doc.body.Entries? ==> WellPlaced(tasks, wrap, doc.body.entries) && |doc.body.entries| == |tasks|
    ensures doc.pageCount == 1 + (if doc.body.Entries? then CountBreaks(doc.body.entries) else 0)
    ensures |doc.footers| == doc.pageCount
    ensures forall i :: 0 <= i < |doc.footers| ==> doc.footers[i] == Footer(i + 1, doc.pageCount)
  {
    var completed := |TaskList.CompletedTasks(tasks)|;
    TaskList.PendingPlusCompleted(tasks);
    var pending := |tasks| - completed;

    var y := HeadingTop;
    y := y + 10;
    var pages := 1;
    var body: Body;
    if |tasks| == 0 {
      body := NoTasks(NoTasksLine, y);
    } else {
      var entries: seq<Entry> := [];
      var index := 0;
      while index < |tasks|
        invariant 0 <= index <= |tasks|
        invariant LayoutOf(tasks, wrap, index) == Layout(entries, Cursor(y, pages))
      {
        var task := tasks[index];
        ghost var placed := Place(Cursor(y, pages), task, index, wrap);
        ghost var before := entries;
        var newPage := false;
        if y > BreakBelow {
          pages := pages + 1;
          y := TopMargin;
          newPage := true;
        }
        var top := y;
        y := y + wrap.titleLines(task.title) * LineHeight;
        var descriptionTop: Option<int> := None;
        if task.description != "" {
          descriptionTop := Some(y);
          y := y + wrap.descriptionLines(task.description) * LineHeight;
        }
        entries := entries + [Entry(index + 1, newPage, pages, top, descriptionTop, y, StatusLabel(task.completed))];
        y := y + EntryGap;
        assert entries == before + [placed.0] && Cursor(y, pages) == placed.1;
        index := index + 1;
      }
      LayoutIsWellPlaced(tasks, wrap, |tasks|);
      PageCountIsBreaks(tasks, wrap, |tasks|);
      body := Entries(entries);
    }

    var footers := PageFooters(pages);
    doc := Document(|tasks|, completed, pending, body, pages, footers);
  }
}

=== FILE: Seqs.dfy ===
/**
 * Sequence facts used by several components: the `Array.prototype.filter`
 * that the frontend applies to task lists, order-preserving subsequences, and
 * sequences without repeated elements (the key order of a dictionary).
 */
module Seqs {

  /** The elements of `s` that satisfy `p`, in their original order. */
  function Filter<T>(s: seq<T>, p: T -> bool): (r: seq<T>)
    ensures |r| <= |s|
    ensures forall x :: x in r ==> x in s && p(x)
    decreases s
  {
    if s == [] then [] else (if p(s[0]) then [s[0]] else []) + Filter(s[1..], p)
  }

  /** `a` can be obtained from `b` by deleting elements, without reordering. */
  predicate IsSubsequence<T(==)>(a: seq<T>, b: seq<T>)
    decreases |a| + |b|
  {
    if a == [] then true
    else if b == [] then false
    else (a[0] == b[0] && IsSubsequence(a[1..], b[1..])) || IsSubsequence(a, b[1..])
  }

  /** No element occurs twice. */
  predicate Distinct<T(==)>(s: seq<T>) {
    forall i, j :: 0 <= i < j < |s| ==> s[i] != s[j]
  }

  /** Every element of `s` that satisfies `p` survives the filter. */
  lemma {:induction false} FilterKeeps<T>(s: seq<T>, p: T -> bool, x: T)
    requires x in s && p(x)
    ensures x in Filter(s, p)
    decreases s
  {
    if s[0] != x {
      FilterKeeps(s[1..], p, x);
    }
  }

  /** Filtering never reorders: the result is a subsequence of the input. */
  lemma {:induction false} FilterIsSubsequence<T>(s: seq<T>, p: T -> bool)
    ensures IsSubsequence(Filter(s, p), s)
    decreases s
  {
    if s != [] {
      FilterIsSubsequence(s[1..], p);
      var rest := Filter(s[1..], p);
      if p(s[0]) {
        assert Filter(s, p) == [s[0]] + rest;
        assert ([s[0]] + rest)[1..] == rest;
      } else {
        assert Filter(s, p) == rest;
      }
    }
  }

  /** A filter and its complement split the input: their sizes add up to its size. */
  lemma {:induction false} FilterPartition<T>(s: seq<T>, p: T -> bool, q: T -> bool)
    requires forall x :: q(x) == !p(x)
    ensures |Filter(s, p)| + |Filter(s, q)| == |s|
    decreases s
  {
    if s != [] {
      FilterPartition(s[1..], p, q);
    }
  }

  /** A filter that every element passes returns its input. */
  lemma {:induction false} FilterAllPass<T>(s: seq<T>, p: T -> bool)
    requires forall x :: x in s ==> p(x)
    ensures Filter(s, p) == s
    decreases s
  {
    if s != [] {
      FilterAllPass(s[1..], p);
      assert [s[0]] + s[1..] == s;
    }
  }

  /** Filtering distributes over concatenation. */
  lemma {:induction false} FilterConcat<T>(a: seq<T>, b: seq<T>, p: T -> bool)
    ensures Filter(a + b, p) == Filter(a, p) + Filter(b, p)
    decreases a
  {
    if a == [] {
      assert a + b == b;
    } else {
      FilterConcat(a[1..], b, p);
      var head := if p(a[0]) then [a[0]] else [];
      calc {
        Filter(a + b, p);
        head + Filter((a + b)[1..], p);
        { assert (a + b)[1..] == a[1..] + b; }
        head + Filter(a[1..] + b, p);
        head + (Filter(a[1..], p) + Filter(b, p));
        (head + Filter(a[1..], p)) + Filter(b, p);
        Filter(a, p) + Filter(b, p);
      }
    }
  }

  /** Filtering a sequence cut in two filters each part. */
  lemma FilterSplit<T>(s: seq<T>, k: nat, p: T -> bool)
    requires k <= |s|
    ensures Filter(s, p) == Filter(s[..k], p) + Filter(s[k..], p)
  {
    assert s == s[..k] + s[k..];
    FilterConcat(s[..k], s[k..], p);
  }

  /** A sequence without repetitions has as many distinct elements as positions. */
  lemma {:induction false} DistinctCardinality<T>(s: seq<T>)
    requires Distinct(s)
    ensures |set x | x in s| == |s|
    decreases s
  {
    if s != [] {
      DistinctCardinality(s[1..]);
      var rest := set x | x in s[1..];
      assert (set x | x in s) == {s[0]} + rest;
      assert s[0] !in s[1..];
    }
  }
}

=== FILE: Store.dfy ===
/**
 * The client-side task store (task-manager-frontend/src/store/taskStore.ts).
 *
 * Each action awaits one call to the task service and then overwrites some of
 * `tasks`, `loading` and `error`. The service's answer is a parameter of the
 * action (`Ok(value)` or `Failed`), so every action is one atomic transition
 * from the state before the call to the state after its answer.
 */
module Store {
  import opened Types
  import Seqs
  import Backend

  /** What the awaited service call produced: its value, or a thrown error. */
  datatype Reply<T> = Ok(value: T) | Failed

  const FetchFailed := "Failed to fetch task"
  const CreateFailed := "Failed to create task"
  const ToggleFailed := "Failed to toggle task"
  const DeleteFailed := "Failed to delete task"

  /** `tasks.map(task => task.id === id ? updated : task)`. */
  function Replaced(tasks: seq<Task>, id: string, updated: Task): (r: seq<Task>)
    ensures |r| == |tasks|
    ensures forall i :: 0 <= i < |tasks| && tasks[i].id != id ==> r[i] == tasks[i]
    ensures forall i :: 0 <= i < |tasks| && tasks[i].id == id ==> r[i] == updated
  {
    seq(|tasks|, i requires 0 <= i < |tasks| => if tasks[i].id == id then updated else tasks[i])
  }

  /** The filter predicate `task => task.id !== id`. */
  function OtherThan(id: string): Task -> bool {
    (t: Task) => t.id != id
  }

  /** The complementary predicate `task => task.id === id`. */
  function HasId(id: string): Task -> bool {
    (t: Task) => t.id == id
  }

  /**
   * `tasks.filter(task => task.id !== id)`: an order-preserving subsequence of
   * exactly the tasks with another id, one entry shorter for each entry with the id
   * (so repeated copies of a kept task all survive).
   */
  function Removed(tasks: seq<Task>, id: string): (r: seq<Task>)
    ensures forall t :: t in r <==> t in tasks && t.id != id
    ensures Seqs.IsSubsequence(r, tasks)
    ensures |r| + |Seqs.Filter(tasks, HasId(id))| == |tasks|
  {
    var r := Seqs.Filter(tasks, OtherThan(id));
    Seqs.FilterPartition(tasks, OtherThan(id), HasId(id));
    forall t | t in tasks && t.id != id ensures t in r {
      Seqs.FilterKeeps(tasks, OtherThan(id), t);
    }
    Seqs.FilterIsSubsequence(tasks, OtherThan(id));
    r
  }

  /** With unique ids, replacing by id rewrites exactly the one position holding that id. */
  lemma ReplacedAtUniqueId(tasks: seq<Task>, id: string, updated: Task, k: nat)
    requires UniqueIds(tasks) && k < |tasks| && tasks[k].id == id
    ensures Replaced(tasks, id, updated) == tasks[k := updated]
  {
    var r := Replaced(tasks, id, updated);
    forall i | 0 <= i < |tasks| ensures r[i] == tasks[k := updated][i] {
      if i != k {
        assert tasks[i].id != id by {
          if i < k { assert tasks[i].id != tasks[k].id; } else { assert tasks[k].id != tasks[i].id; }
        }
      }
    }
  }

  /** Replacing a task by one with the same id keeps the ids unique. */
  lemma ReplacedKeepsUniqueIds(tasks: seq<Task>, id: string, updated: Task)
    requires UniqueIds(tasks) && updated.id == id
    ensures UniqueIds(Replaced(tasks, id, updated))
  {
    var r := Replaced(tasks, id, updated);
    forall i, j | 0 <= i < j < |r| ensures r[i].id != r[j].id {
      assert r[i].id == tasks[i].id && r[j].id == tasks[j].id;
    }
  }

  /** Dropping tasks from a list with unique ids keeps the ids unique. */
  lemma {:induction false} FilterKeepsUniqueIds(tasks: seq<Task>, p: Task -> bool)
    requires UniqueIds(tasks)
    ensures UniqueIds(Seqs.Filter(tasks, p))
    decreases |tasks|
  {
    if tasks != [] {
      var tail := tasks[1..];
      assert UniqueIds(tail) by {
        forall i, j | 0 <= i < j < |tail| ensures tail[i].id != tail[j].id {
          assert tail[i] == tasks[i + 1] && tail[j] == tasks[j + 1];
        }
      }
      FilterKeepsUniqueIds(tail, p);
      var rest := Seqs.Filter(tail, p);
      if p(tasks[0]) {
        var r := Seqs.Filter(tasks, p);
        assert r == [tasks[0]] + rest;
        forall i, j | 0 <= i < j < |r| ensures r[i].id != r[j].id {
          if i == 0 {
            assert rest[j - 1] in tail;
            var m :| 0 <= m < |tail| && tail[m] == rest[j - 1];
            assert tasks[m + 1] == r[j];
          } else {
            assert r[i] == rest[i - 1] && r[j] == rest[j - 1];
          }
        }
      }
    }
  }

  /** `filter(task => task.id !== id)` keeps the store's ids unique. */
  lemma RemovedKeepsUniqueIds(tasks: seq<Task>, id: string)
    requires UniqueIds(tasks)
    ensures UniqueIds(Removed(tasks, id))
  {
    FilterKeepsUniqueIds(tasks, OtherThan(id));
  }

  /** Appending a task whose id is new keeps the ids unique. */
  lemma AppendedKeepsUniqueIds(tasks: seq<Task>, t: Task)
    requires UniqueIds(tasks) && forall u :: u in tasks ==> u.id != t.id
    ensures UniqueIds(tasks + [t])
  {
    var r := tasks + [t];
    forall i, j | 0 <= i < j < |r| ensures r[i].id != r[j].id {
      if j == |tasks| {
        assert r[i] in tasks;
      }
    }
  }

  /** With unique ids, deleting an id that is present drops exactly that one task. */
  lemma RemovedAtUniqueId(tasks: seq<Task>, id: string, k: nat)
    requires UniqueIds(tasks) && k < |tasks| && tasks[k].id == id
    ensures Removed(tasks, id) == tasks[..k] + tasks[k + 1..]
    ensures |Removed(tasks, id)| == |tasks| - 1
  {
    SplitAtUniqueId(tasks, k);
  }

  /** The filter behind `Removed`, split around the position of the id. */
  lemma SplitAtUniqueId(tasks: seq<Task>, k: nat)
    requires UniqueIds(tasks) && k < |tasks|
    ensures Seqs.Filter(tasks, OtherThan(tasks[k].id)) == tasks[..k] + tasks[k + 1..]
  {
    Seqs.FilterSplit(tasks, k, OtherThan(tasks[k].id));
    KeepsBefore(tasks, k);
    DropsAt(tasks, k);
  }

  /** With unique ids, no task before position `k` shares its id. */
  lemma KeepsBefore(tasks: seq<Task>, k: nat)
    requires UniqueIds(tasks) && k < |tasks|
    ensures Seqs.Filter(tasks[..k], OtherThan(tasks[k].id)) == tasks[..k]
  {
    forall t | t in tasks[..k] ensures OtherThan(tasks[k].id)(t) {
      var i :| 0 <= i < k && tasks[i] == t;
    }
    Seqs.FilterAllPass(tasks[..k], OtherThan(tasks[k].id));
  }

  /** With unique ids, no task after position `k` shares its id. */
  lemma KeepsAfter(tasks: seq<Task>, k: nat)
    requires UniqueIds(tasks) && k < |tasks|
    ensures Seqs.Filter(tasks[k + 1..], OtherThan(tasks[k].id)) == tasks[k + 1..]
  {
    var back := tasks[k + 1..];
    forall t | t in back ensures OtherThan(tasks[k].id)(t) {
      var i :| 0 <= i < |back| && back[i] == t;
      assert tasks[k + 1 + i] == t;
    }
    Seqs.FilterAllPass(back, OtherThan(tasks[k].id));
  }

  /** With unique ids, filtering out the id at position `k` drops it and keeps everything after it. */
  lemma DropsAt(tasks: seq<Task>, k: nat)
    requires UniqueIds(tasks) && k < |tasks|
    ensures Seqs.Filter(tasks[k..], OtherThan(tasks[k].id)) == tasks[k + 1..]
  {
    var p := OtherThan(tasks[k].id);
    KeepsAfter(tasks, k);
    assert tasks[k..] == [tasks[k]] + tasks[k + 1..];
    Seqs.FilterConcat([tasks[k]], tasks[k + 1..], p);
    assert Seqs.Filter([tasks[k]], p) == [];
  }

  /**
   * The store's side of toggling: with unique ids, mirroring the server's
   * toggled task flips exactly the matching entry and leaves the others alone.
   */
  lemma ToggleMirrorsServer(tasks: seq<Task>, k: nat)
    requires UniqueIds(tasks) && k < |tasks|
    ensures var r := Replaced(tasks, tasks[k].id, Backend.Toggled(tasks[k]));
      && |r| == |tasks|
      && r[k].completed == !tasks[k].completed
      && r[k].(completed := tasks[k].completed) == tasks[k]
      && (forall i :: 0 <= i < |tasks| && i != k ==> r[i] == tasks[i])
  {
    ReplacedAtUniqueId(tasks, tasks[k].id, Backend.Toggled(tasks[k]), k);
  }

  class TaskStore {
    var tasks: seq<Task>
    var loading: bool
    var error: Option<string>

    constructor ()
      ensures tasks == [] && !loading && error == None
    {
      tasks, loading, error := [], false, None;
    }

    /** `fetchTasks`: replace the whole list, or keep it and report the failure. */
    method FetchTasks(reply: Reply<seq<Task>>)
      modifies this
      ensures !loading
      ensures reply.Ok? ==> tasks == reply.value && error == None
      ensures reply.Failed? ==> tasks == old(tasks) && error == Some(FetchFailed)
    {
      loading, error := true, None;
      match reply {
        case Ok(fetched) =>
          tasks, loading := fetched, false;
        case Failed =>
          error, loading := Some(FetchFailed), false;
      }
    }

    /**
     * `createTask`: append the server's task, or keep the list and report the
     * failure; `raised` says that the error is re-thrown to the caller.
     */
    method CreateTask(reply: Reply<Task>) returns (raised: bool)
      modifies this
      ensures !loading
      ensures raised <==> reply.Failed?
      ensures reply.Ok? ==> tasks == old(tasks) + [reply.value] && error == None
      ensures reply.Failed? ==> tasks == old(tasks) && error == Some(CreateFailed)
      ensures UniqueIds(old(tasks)) && (reply.Ok? ==> forall t :: t in old(tasks) ==> t.id != reply.value.id)
        ==> UniqueIds(tasks)
    {
      loading, error := true, None;
      match reply {
        case Ok(created) =>
          if UniqueIds(tasks) && forall t :: t in tasks ==> t.id != created.id {
            AppendedKeepsUniqueIds(tasks, created);
          }
          tasks, loading := tasks + [created], false;
          raised := false;
        case Failed =>
          error, loading := Some(CreateFailed), false;
          raised := true;
      }
    }

    /** `toggleTask`: put the server's task where the id was; a failure is reported, not re-thrown. */
    method ToggleTask(id: string, reply: Reply<Task>)
      modifies this
      ensures loading == old(loading)
      ensures reply.Ok? ==> tasks == Replaced(old(tasks), id, reply.value) && error == old(error)
      ensures reply.Failed? ==> tasks == old(tasks) && error == Some(ToggleFailed)
      ensures UniqueIds(old(tasks)) && (reply.Ok? ==> reply.value.id == id) ==> UniqueIds(tasks)
    {
      match reply {
        case Ok(updated) =>
          if UniqueIds(tasks) && updated.id == id {
            ReplacedKeepsUniqueIds(tasks, id, updated);
          }
          tasks := Replaced(tasks, id, updated);
        case Failed =>
          error := Some(ToggleFailed);
      }
    }

    /** `deleteTask`: drop the id from the list; a failure is reported, not re-thrown. */
    method DeleteTask(id: string, reply: Reply<()>)
      modifies this
      ensures loading == old(loading)
      ensures reply.Ok? ==> tasks == Removed(old(tasks), id) && error == old(error)
      ensures reply.Failed? ==> tasks == old(tasks) && error == Some(DeleteFailed)
      ensures UniqueIds(old(tasks)) ==> UniqueIds(tasks)
    {
      match reply {
        case Ok(_) =>
          if UniqueIds(tasks) {
            RemovedKeepsUniqueIds(tasks, id);
          }
          tasks := Removed(tasks, id);
        case Failed =>
          error := Some(DeleteFailed);
      }
    }

    /** `clearError`. */
    method ClearError()
      modifies this
      ensures error == None && tasks == old(tasks) && loading == old(loading)
    {
      error := None;
    }
  }
}

=== FILE: TaskForm.dfy ===
/**
 * The create-task form (task-manager-frontend/src/components/TaskForm.tsx):
 * title validation by `String.prototype.trim`, the payload it sends to the
 * store, and the form state before and after a submit.
 */
module TaskForm {
  import opened Types
  import Store

  const TitleRequired := "Title is required"

  /** The characters `trim` removes: ECMAScript WhiteSpace and LineTerminator code points. */
  predicate IsWhitespace(c: char) {
    var n := c as int;
    || n == 0x09 || n == 0x0A || n == 0x0B || n == 0x0C || n == 0x0D
    || n == 0x20 || n == 0xA0 || n == 0x1680
    || (0x2000 <= n <= 0x200A)
    || n == 0x2028 || n == 0x2029 || n == 0x202F || n == 0x205F
    || n == 0x3000 || n == 0xFEFF
  }

  /** Every character is whitespace (the empty string included). */
  predicate IsBlank(s: string) {
    forall i :: 0 <= i < |s| ==> IsWhitespace(s[i])
  }

  /** The number of whitespace characters `s` starts with. */
  function LeadingSpaces(s: string): (n: nat)
    ensures n <= |s|
    ensures forall i :: 0 <= i < n ==> IsWhitespace(s[i])
    ensures n < |s| ==> !IsWhitespace(s[n])
    decreases s
  {
    if s != [] && IsWhitespace(s[0]) then 1 + LeadingSpaces(s[1..]) else 0
  }

  /** The number of whitespace characters `s` ends with. */
  function TrailingSpaces(s: string): (n: nat)
    ensures n <= |s|
    ensures forall i :: |s| - n <= i < |s| ==> IsWhitespace(s[i])
    ensures n < |s| ==> !IsWhitespace(s[|s| - n - 1])
    decreases s
  {
    if s != [] && IsWhitespace(s[|s| - 1]) then 1 + TrailingSpaces(s[..|s| - 1]) else 0
  }

  /** `s.trim()`: drop the leading whitespace, then the trailing whitespace of what is left. */
  function Trim(s: string): string {
    var rest := s[LeadingSpaces(s)..];
    rest[..|rest| - TrailingSpaces(rest)]
  }

  /** `!s.trim()`: the trimmed string is empty exactly when the input is all whitespace. */
  lemma TrimEmptyIffBlank(s: string)
    ensures Trim(s) == [] <==> IsBlank(s)
  {
    var lead := LeadingSpaces(s);
    var rest := s[lead..];
    if lead < |s| {
      // `rest` starts with a non-whitespace character, which TrailingSpaces cannot remove
      assert rest[0] == s[lead];
    }
  }

  /** The trimmed string neither starts nor ends with whitespace. */
  lemma TrimHasNoOuterWhitespace(s: string)
    ensures var r := Trim(s); r == [] || (!IsWhitespace(r[0]) && !IsWhitespace(r[|r| - 1]))
  {
    var lead := LeadingSpaces(s);
    var rest := s[lead..];
    var r := Trim(s);
    if r != [] {
      assert r[0] == rest[0] == s[lead];
      assert r[|r| - 1] == rest[|rest| - TrailingSpaces(rest) - 1];
    }
  }

  /**
   * `trim` keeps one contiguous slice of its input, starting after the
   * leading whitespace, with only whitespace after it.
   */
  lemma TrimIsInfix(s: string)
    ensures var r, lead := Trim(s), LeadingSpaces(s);
      && lead + |r| <= |s| && r == s[lead..lead + |r|]
      && IsBlank(s[..lead]) && IsBlank(s[lead + |r|..])
  {
    var lead := LeadingSpaces(s);
    var rest := s[lead..];
    var r := Trim(s);
    assert r == s[lead..lead + |r|];
    forall j | lead + |r| <= j < |s| ensures IsWhitespace(s[j]) {
      assert s[j] == rest[j - lead];
    }
  }

  /** Trimming twice trims nothing more. */
  lemma TrimIdempotent(s: string)
    ensures Trim(Trim(s)) == Trim(s)
  {
    var r := Trim(s);
    TrimHasNoOuterWhitespace(s);
    assert LeadingSpaces(r) == 0;
    assert r[0..] == r;
    assert TrailingSpaces(r) == 0;
  }

  class TaskForm {
    var title: string
    var description: string
    var isSubmitting: bool
    var showSuccess: bool
    var validationError: string

    constructor ()
      ensures title == "" && description == "" && validationError == ""
      ensures !isSubmitting && !showSuccess
    {
      title, description, validationError := "", "", "";
      isSubmitting, showSuccess := false, false;
    }

    /** The title input's `onChange`: store the text and clear the validation error. */
    method EditTitle(value: string)
      modifies this
      ensures title == value && validationError == ""
      ensures description == old(description) && isSubmitting == old(isSubmitting) && showSuccess == old(showSuccess)
    {
      title := value;
      validationError := "";
    }

    /** The description input's `onChange`. */
    method EditDescription(value: string)
      modifies this
      ensures description == value
      ensures title == old(title) && validationError == old(validationError)
      ensures isSubmitting == old(isSubmitting) && showSuccess == old(showSuccess)
    {
      description := value;
    }

    /**
     * `handleSubmit`, with the store's `createTask` answered by `reply`.
     * `sent` is the payload handed to the store, if validation let it through;
     * by TrimEmptyIffBlank, validation refuses exactly the all-whitespace titles.
     */
    method Submit(store: Store.TaskStore, reply: Store.Reply<Task>) returns (sent: Option<TaskCreate>)
      modifies this, store
      ensures Trim(old(title)) == [] ==>
        && sent == None && validationError == TitleRequired
        && title == old(title) && description == old(description)
        && isSubmitting == old(isSubmitting) && showSuccess == old(showSuccess)
        && unchanged(store)
      ensures Trim(old(title)) != [] ==>
        && sent == Some(TaskCreate(Trim(old(title)), Some(Trim(old(description)))))
        && validationError == "" && !isSubmitting && !store.loading
      ensures Trim(old(title)) != [] && reply.Ok? ==>
        && title == "" && description == "" && showSuccess
        && store.tasks == old(store.tasks) + [reply.value] && store.error == None
      ensures Trim(old(title)) != [] && reply.Failed? ==>
        && title == old(title) && description == old(description) && showSuccess == old(showSuccess)
        && store.tasks == old(store.tasks) && store.error == Some(Store.CreateFailed)
    {
      var trimmedTitle := Trim(title);
      if trimmedTitle == [] {
        validationError := TitleRequired;
        return None;
      }
      var payload := TaskCreate(trimmedTitle, Some(Trim(description)));
      isSubmitting := true;
      validationError := "";
      store.ClearError();
      var raised := store.CreateTask(reply);
      if !raised {
        title, description := "", "";
        showSuccess := true;
      }
      isSubmitting := false;
      sent := Some(payload);
    }
  }
}

=== FILE: TaskList.dfy ===
/**
 * The list view's filtering (task-manager-frontend/src/components/TaskList.tsx):
 * the three-way filter, the counts on the filter buttons and the choice
 * between the spinner, the empty state and the cards.
 */
module TaskList {
  import opened Types
  import Seqs

  datatype FilterKind = All | Pending | Completed

  /** Whether filter `f` lets task `t` through. */
  predicate Shows(f: FilterKind, t: Task) {
    match f
    case Pending => !t.completed
    case Completed => t.completed
    case All => true
  }

  /** `filteredTasks`. */
  function FilteredTasks(tasks: seq<Task>, f: FilterKind): (r: seq<Task>)
    ensures forall t :: t in r <==> t in tasks && Shows(f, t)
    ensures Seqs.IsSubsequence(r, tasks)
  {
    var r := Seqs.Filter(tasks, t => Shows(f, t));
    forall t | t in tasks && Shows(f, t) ensures t in r {
      Seqs.FilterKeeps(tasks, t => Shows(f, t), t);
    }
    Seqs.FilterIsSubsequence(tasks, t => Shows(f, t));
    r
  }

  /** `tasks.filter(t => !t.completed)`. */
  function PendingTasks(tasks: seq<Task>): (r: seq<Task>)
    ensures forall t :: t in r <==> t in tasks && !t.completed
  {
    FilteredTasks(tasks, Pending)
  }

  /** `tasks.filter(t => t.completed)`. */
  function CompletedTasks(tasks: seq<Task>): (r: seq<Task>)
    ensures forall t :: t in r <==> t in tasks && t.completed
  {
    FilteredTasks(tasks, Completed)
  }

  /** The 'all' filter shows the list unchanged. */
  lemma FilterAllIsIdentity(tasks: seq<Task>)
    ensures FilteredTasks(tasks, All) == tasks
  {
    Seqs.FilterAllPass(tasks, t => Shows(All, t));
  }

  /** Every task is either pending or completed, never both. */
  lemma PendingPlusCompleted(tasks: seq<Task>)
    ensures |PendingTasks(tasks)| + |CompletedTasks(tasks)| == |tasks|
  {
    Seqs.FilterPartition(tasks, t => Shows(Pending, t), t => Shows(Completed, t));
  }

  /** The numbers on the three filter buttons. */
  datatype ButtonCounts = ButtonCounts(all: nat, pending: nat, completed: nat)

  function Counts(tasks: seq<Task>): (c: ButtonCounts)
    ensures c.all == |tasks| == c.pending + c.completed
    ensures c.pending == |FilteredTasks(tasks, Pending)| && c.completed == |FilteredTasks(tasks, Completed)|
  {
    PendingPlusCompleted(tasks);
    ButtonCounts(|tasks|, |PendingTasks(tasks)|, |CompletedTasks(tasks)|)
  }

  /** The heading and hint of the empty state, chosen by the filter. */
  function EmptyHeading(f: FilterKind): string {
    match f
    case All => "No tasks yet"
    case Pending => "No pending tasks"
    case Completed => "No completed tasks"
  }

  function EmptyHint(f: FilterKind): string {
    match f
    case All => "Create your first task to get started!"
    case Pending => "All tasks are completed. Great job!"
    case Completed => "Complete some tasks to see them here."
  }

  datatype ListView = Spinner | EmptyState(heading: string, hint: string) | Cards(cards: seq<Task>)

  /** What the list shows: the spinner while loading, else the empty state or one card per shown task. */
  function Render(tasks: seq<Task>, loading: bool, f: FilterKind): (v: ListView)
    ensures v.Spinner? <==> loading
    ensures v.EmptyState? <==> !loading && FilteredTasks(tasks, f) == []
    ensures v.EmptyState? ==> v == EmptyState(EmptyHeading(f), EmptyHint(f))
    ensures v.Cards? ==> v.cards == FilteredTasks(tasks, f) && v.cards != []
  {
    if loading then Spinner
    else
      var shown := FilteredTasks(tasks, f);
      if |shown| == 0 then EmptyState(EmptyHeading(f), EmptyHint(f)) else Cards(shown)
  }
}

=== FILE: Types.dfy ===
/**
 * The records shared by the backend and the frontend: a stored Task and the
 * two request payloads that create and partially update one.
 */
module Types {

  datatype Option<T> = None | Some(value: T) {
    function GetOr(default: T): T {
      match this
      case Some(v) => v
      case None => default
    }
  }

  /** A task as the API returns it; `id` and `createdAt` are assigned by the server. */
  datatype Task = Task(id: string, title: string, description: string, completed: bool, createdAt: string)

  /** Body of a create request; an absent description is `None`. */
  datatype TaskCreate = TaskCreate(title: string, description: Option<string>)

  /** Body of a partial update: `None` means "leave this field alone". */
  datatype TaskUpdate = TaskUpdate(title: Option<string>, description: Option<string>, completed: Option<bool>)

  /** No two tasks of the sequence share an id. */
  ghost predicate UniqueIds(tasks: seq<Task>) {
    forall i, j :: 0 <= i < j < |tasks| ==> tasks[i].id != tasks[j].id
  }
}
